=== FILE: README.md ===
# Question answering and SQL gateway, batch protocol and question box

A verified model of three pieces of an Azure OpenAI "chat with your data"
gateway:

- the **batch record protocol** of the two Azure Functions (`QuestionAnswering`
  and `SqlChain`): `ComposeResponse` walks the request's `values` array and keeps,
  in order, every output record that `TransformValue` returns; `TransformValue`
  validates one record (`data`, then `data.text`), reports validation failures and
  later exceptions as `errors` records with fixed messages, and otherwise calls the
  answering function;
- the deterministic part of **`FindAnswer`**: defaulting of the per-record
  overrides with Python `or`, dispatch on `approach` and on the index type
  (`pinecone`, `redis`, `cogsearch`, `milvus`), label normalisation of the
  completion text with `str.replace`, refusal suppression on `"I don't know"`,
  citation of the first fragment's `source`, the `data_points` / `thoughts`
  fields, the fail-soft records of the Redis and enterprise-search branches and
  the synthetic "No results found" fragment; and the result/error record of
  `FindSqlAnswer`;
- the front end's **question box** (`QuestionInput`), a class holding `question`
  and `prevQuestion` with the send guard, the edit cap of 1000 UTF-16 code units, clear on
  send, the Enter key and the one-shot sync from `updateQuestion`.

Files: `strings.dfy` (module `Strings`: substring test and `str.replace`, with
the facts about replacement the normalisation relies on), `values.dfy` (module
`Values`: decoded JSON values, Python truthiness, exceptions as an `Outcome`,
`v[key]` and `key in v` with their Python 3.11 error behaviour),
`batch.dfy` (module `Batch`: output records, record validation and `Collect`,
the meaning of the `ComposeResponse` loop), `question_answering.dfy`,
`sql_chain.dfy` and `question_input.dfy`.

External services (LLM, embeddings, Pinecone, Redis, the enterprise search, the
SQL chain) are replaced by their outcome for the record being processed: a
`QaServices` value (or the SQL chain's output dictionary) per record, supplied
through a `world` function indexed by the record's position.

Two behaviours of the code are easy to misread, and the model follows the code:

- A record without `recordId` is not dropped. `record['recordId']` raises
  `KeyError`, the only handler around it is `except AssertionError`, so the
  exception leaves `TransformValue` and aborts the whole batch
  (`BatchAbortsOnMissingRecordId`). The `return None` branch cannot be reached,
  so a batch that completes has exactly one output record per input record
  (`BatchCompleteIsOneToOne`).
- A failure in the Pinecone branch does not produce a generic error record: the
  outer handler of `FindAnswer` swallows it and the function returns `None`, so
  the record becomes `{recordId, data: null}` (`PineconeFailuresGiveNone`).

Likewise, of the validation handlers only the `AssertionError` one can fire;
`'text' in data` on a `data` that is not a string, list or dictionary raises
`TypeError`, which escapes and aborts the batch as well.

## Model

| member | source | states |
|---|---|---|
| Strings.ReplaceRemovesPattern | api/Python/QuestionAnswering/__init__.py:262 | after `s.replace(pat, rep)` no occurrence of `pat` is left, whenever no occurrence of `pat` can overlap an inserted `rep` |
| Strings.ReplaceKeepsAbsent | api/Python/QuestionAnswering/__init__.py:262 | `s.replace(pat, rep)` creates no occurrence of a string `q` that `s` lacked, whenever `q` cannot overlap an inserted `rep` |
| Values.Subscript | api/Python/QuestionAnswering/__init__.py:428 | `v[key]` returns exactly when `v` is a dictionary holding `key`; a missing key raises `KeyError` with the key's repr, a non-dictionary raises `TypeError` |
| Values.Membership | api/Python/QuestionAnswering/__init__.py:436 | `key in v` raises `TypeError` exactly when `v` is not a string, list or dictionary; on a dictionary it tests the keys, on a list the elements |
| Batch.Validate | api/Python/QuestionAnswering/__init__.py:433-455 | a record without `data` fails with "AssertionError:'data' field is required."; a dictionary `data` passes exactly when it holds `text`, otherwise fails with the `text` message; the check raises `TypeError` exactly when `data` is not a container |
| Batch.CollectBound | api/Python/QuestionAnswering/__init__.py:416-423 | the response holds at most as many records as the request |
| Batch.CollectPrefixRaised | api/Python/QuestionAnswering/__init__.py:419-422 | once a record raises, the batch ends with that exception whatever follows |
| Batch.CollectNoRaise | api/Python/QuestionAnswering/__init__.py:419-422 | a batch in which no record raises returns |
| Batch.CollectReturnedNoRaise | api/Python/QuestionAnswering/__init__.py:419-422 | a batch that returns had no record that raised |
| Batch.CollectFirstRaise | api/Python/QuestionAnswering/__init__.py:419-422 | the first record that raises decides the batch's exception |
| Batch.CollectOneToOne | api/Python/QuestionAnswering/__init__.py:419-422 | when every record yields an output record, the response is exactly those records in request order |
| QuestionAnswering.ResolveOverrides | api/Python/QuestionAnswering/__init__.py:49-52 | each of `top`, `chainType`, `temperature`, `tokenLength` keeps the supplied value when present and truthy and otherwise becomes 5, "stuff", 0.3, 500; overrides that are not a dictionary raise `AttributeError` |
| QuestionAnswering.ResolvedSettingsTruthy | api/Python/QuestionAnswering/__init__.py:49-52 | every resolved option is truthy, so `top = 0` becomes 5 |
| QuestionAnswering.StrategyOf | api/Python/QuestionAnswering/__init__.py:65-239 | a question-answering chain exists exactly for "stuff", "map_rerank", "map_reduce" and "refine" |
| QuestionAnswering.NormalizeAnswer | api/Python/QuestionAnswering/__init__.py:262 | after the replacement chain the answer contains neither "Sources:" nor "Next Questions:" |
| QuestionAnswering.FollowupLabelCanSurvive | api/Python/QuestionAnswering/__init__.py:268 | the follow-up text's removal of "NEXT QUESTIONS:" can leave that label behind: "NEXT NEXT QUESTIONS:QUESTIONS:" becomes "NEXT QUESTIONS:" |
| QuestionAnswering.NormalizeUpperCase | api/Python/QuestionAnswering/__init__.py:262 | text without the letters `A`, `o`, `e` is left unchanged by the answer normalisation |
| QuestionAnswering.Thoughts | api/Python/QuestionAnswering/__init__.py:277 | the thought trace starts with "<br><br>Prompt:<br>" and contains no newline |
| QuestionAnswering.ThoughtsOfOneLine | api/Python/QuestionAnswering/__init__.py:277 | a one-line prompt appears in the trace unchanged after "<br><br>Prompt:<br>" |
| QuestionAnswering.ThoughtsBreaksLine | api/Python/QuestionAnswering/__init__.py:277 | the first line break of the prompt becomes `<br>` between the first line and the trace of the rest, so the trace of any prompt is its lines joined by `<br>` after the header |
| QuestionAnswering.PageContents | api/Python/QuestionAnswering/__init__.py:251-253 | one page content per fragment, in retrieval order |
| QuestionAnswering.CollectRawDocs | api/Python/QuestionAnswering/__init__.py:251-253 | the append loop builds exactly the fragments' contents in order |
| QuestionAnswering.Finish | api/Python/QuestionAnswering/__init__.py:262-278 | a follow-up failure propagates; a returned record lists the contents, carries the normalised answer and the one-line thought trace of the prompt, and has empty `error`; a refusal has empty `sources` and `nextQuestions`; otherwise it succeeds exactly when the first fragment exists and has a `source`, cites exactly that source, and carries the normalised follow-up text as `nextQuestions` |
| QuestionAnswering.HitToDoc | api/Python/QuestionAnswering/__init__.py:325 | a search hit becomes a fragment exactly when it has `content`, `id` and `sourcefile` |
| QuestionAnswering.HitsToDocs | api/Python/QuestionAnswering/__init__.py:324-327 | one fragment per hit in hit order, with the hit's content and `source` taken from its `sourcefile`; any incomplete hit raises |
| QuestionAnswering.Dispatch | api/Python/QuestionAnswering/__init__.py:48-370 | `rrr`, `rca` and `milvus` under `rtr` give the placeholder "{'answer': 'TBD', 'sources': ''}"; other approaches, other index types, overrides that are not a dictionary and a failed model setup give `None` |
| QuestionAnswering.RefusalSuppression | api/Python/QuestionAnswering/__init__.py:269-274 | any answer record whose answer contains "I don't know" has empty `sources` and `nextQuestions` |
| QuestionAnswering.FailSoftBackends | api/Python/QuestionAnswering/__init__.py:279-358 | the Redis and enterprise-search branches always return an answer record; a fail-soft one has answer = backend label + error text and every other field empty, a composed one has an empty `error` |
| QuestionAnswering.PineconeFailuresGiveNone | api/Python/QuestionAnswering/__init__.py:241-278 | a failing retrieval, an unbound `qaChain`, a failing completion or follow-up, or a non-refusal answer without a first fragment `source` gives `None` (the outer handler at line 370); when every step succeeds the branch returns an answer record, and it never returns a fail-soft one |
| QuestionAnswering.RedisFailuresFailSoft | api/Python/QuestionAnswering/__init__.py:279-317 | the first step that raises, whether the search, the unbound `qaChain`, the completion, the follow-up, `docs[0]` or its `source`, yields the fail-soft record carrying exactly that exception's text |
| QuestionAnswering.CogSearchFailuresFailSoft | api/Python/QuestionAnswering/__init__.py:318-358 | the first step that raises, whether the search, an incomplete hit, the unbound `qaChain`, the completion, the follow-up, `docs[0]` or its `source`, yields the fail-soft record carrying exactly that exception's text |
| QuestionAnswering.RetrievalAnswerCitesFirstFragment | api/Python/QuestionAnswering/__init__.py:241-315 | a composed Pinecone or Redis answer comes from a returned retrieval and two returned completions; it lists the retrieved contents in order, its answer is the normalised completion output (so no mixed-case label), its trace is that of the rendered prompt, and unless it is a refusal it cites exactly the first fragment's `source` and carries the normalised follow-up text |
| QuestionAnswering.SearchAnswerCitesFirstHit | api/Python/QuestionAnswering/__init__.py:318-356 | a composed enterprise-search answer comes from two returned completions, carries the normalised completion output and the trace of the rendered prompt, and unless it refuses cites the first hit's `sourcefile` and carries the normalised follow-up text; with no search result its only data point is "No results found" and it must be a refusal |
| QuestionAnswering.NoSearchResultWithoutRefusal | api/Python/QuestionAnswering/__init__.py:321-358 | with no search result and an answer that does not refuse, the missing `source` of the synthetic fragment yields the fail-soft record with error "'source'" |
| QuestionAnswering.AnswerRecord | api/Python/QuestionAnswering/__init__.py:457-463 | the record is answered exactly when `data` is a dictionary holding `text`, `approach` and `overrides` |
| QuestionAnswering.TransformValue | api/Python/QuestionAnswering/__init__.py:425-474 | raises exactly for records the protocol cannot process (missing `recordId`: `KeyError`); otherwise one record echoing `recordId`: the `data` message when `data` is missing; for a dictionary `data` the `text` message, "Could not complete operation for record." when `approach` or `overrides` is missing, and `FindAnswer`'s result otherwise; for a string or list `data` the `text` message when it does not hold "text" and "Could not complete operation for record." when it does |
| QuestionAnswering.ComposeResponse | api/Python/QuestionAnswering/__init__.py:411-423 | the loop's result is `Collect` of the per-record outcomes: the non-`None` records in order, or the first escaping exception |
| QuestionAnswering.BatchEchoesRecordIds | api/Python/QuestionAnswering/__init__.py:419-474 | processable records give exactly one output record each, in order, echoing the input `recordId` |
| QuestionAnswering.BatchCompleteIsOneToOne | api/Python/QuestionAnswering/__init__.py:416-474 | a batch that completes had only processable records and has exactly one output record per request record, in order, echoing its `recordId` |
| QuestionAnswering.BatchAbortsOnMissingRecordId | api/Python/QuestionAnswering/__init__.py:427-430 | a record without `recordId` after processable ones makes the whole batch raise `KeyError('recordId')` |
| QuestionAnswering.BatchBound | api/Python/QuestionAnswering/__init__.py:416-423 | the response never has more records than the request |
| SqlChain.FindSqlAnswer | api/Python/SqlChain/__init__.py:31-95 | `data_points` is always empty; on success answer and thoughts are the chain's `result` and `intermediate_steps` with empty `error`; any failure, including a missing output key, gives empty answer and thoughts and the exception text as `error` |
| SqlChain.TransformValue | api/Python/SqlChain/__init__.py:141-188 | raises exactly for unprocessable records; otherwise one record echoing `recordId`: the `data` message when `data` is missing; for a dictionary `data` the `text` message or, when it holds `text`, the `FindSqlAnswer` record; for a string or list `data` the `text` message when it does not hold "text" and "Could not complete operation for record." when it does |
| SqlChain.GenericErrorOnlyForNonDictData | api/Python/SqlChain/__init__.py:173-188 | "Could not complete operation for record." is produced exactly when `data` is a string or list containing "text" |
| SqlChain.ComposeResponse | api/Python/SqlChain/__init__.py:127-139 | the loop's result is `Collect` of the per-record outcomes |
| SqlChain.BatchEchoesRecordIds | api/Python/SqlChain/__init__.py:135-181 | processable records give one output record each, in order, echoing `recordId`, carrying the chain's record when `data.text` is present |
| SqlChain.BatchCompleteIsOneToOne | api/Python/SqlChain/__init__.py:127-181 | a batch that completes had only processable records and has exactly one output record per request record, in order, echoing its `recordId` |
| SqlChain.BatchAbortsOnMissingRecordId | api/Python/SqlChain/__init__.py:143-146 | a record without `recordId` makes the whole batch raise `KeyError('recordId')` |
| SqlChain.BatchBound | api/Python/SqlChain/__init__.py:132-138 | the response never has more records than the request |
| QuestionInput.TrimStart | app/frontend/src/components/QuestionInput/QuestionInput.tsx:34 | the result is a suffix of the text, everything removed is white space, and it does not start with white space |
| QuestionInput.TrimEnd | app/frontend/src/components/QuestionInput/QuestionInput.tsx:34 | the result is a prefix of the text, everything removed is white space, and it does not end with white space |
| QuestionInput.TrimEmptyIffBlank | app/frontend/src/components/QuestionInput/QuestionInput.tsx:34 | `text.trim()` is empty exactly when the text is all white space |
| QuestionInput.QuestionInput.constructor | app/frontend/src/components/QuestionInput/QuestionInput.tsx:24-25 | both fields start empty |
| QuestionInput.QuestionInput.SendQuestionDisabled | app/frontend/src/components/QuestionInput/QuestionInput.tsx:80 | disabled exactly when `disabled` or the question is all white space |
| QuestionInput.QuestionInput.SyncUpdateQuestion | app/frontend/src/components/QuestionInput/QuestionInput.tsx:28-31 | a non-empty `updateQuestion` differing from `prevQuestion` sets both fields to it, otherwise nothing changes; afterwards `prevQuestion` equals any non-empty `updateQuestion` |
| QuestionInput.QuestionInput.SendQuestion | app/frontend/src/components/QuestionInput/QuestionInput.tsx:33-44 | sends exactly when sending is not disabled, sends the untrimmed question, clears both fields exactly when it sent with `clearOnSend`, otherwise changes nothing |
| QuestionInput.QuestionInput.OnEnterPress | app/frontend/src/components/QuestionInput/QuestionInput.tsx:46-51 | Enter without Shift prevents the default and behaves as `SendQuestion`; any other key changes nothing and sends nothing |
| QuestionInput.Utf16Length | app/frontend/src/components/QuestionInput/QuestionInput.tsx:56 | JavaScript's `length`: between one and two UTF-16 units per character, and equal to the character count exactly when no character lies outside the Basic Multilingual Plane |
| QuestionInput.QuestionInput.OnQuestionChange | app/frontend/src/components/QuestionInput/QuestionInput.tsx:53-59 | an empty or missing value clears the question, one of at most 1000 UTF-16 code units replaces it, a longer one is ignored, so the handler never stores more than 1000 code units |
| QuestionInput.SyncDoesNotOverwriteEdits | app/frontend/src/components/QuestionInput/QuestionInput.tsx:28-59 | after a sync and an edit, a render with the same `updateQuestion` keeps the edit |
| QuestionInput.ClearedBoxCannotSend | app/frontend/src/components/QuestionInput/QuestionInput.tsx:28-59 | with no or an empty `updateQuestion`, syncing before every event, a send with `clearOnSend` is followed by a send that sends nothing |
| QuestionInput.ClearedBoxRefilledBySync | app/frontend/src/components/QuestionInput/QuestionInput.tsx:28-44 | with a non-blank `updateQuestion`, clearing on send also clears `prevQuestion`, so the next render's sync refills the box and a second send sends `updateQuestion` again |

## Left out

- The HTTP triggers `main` (request parameters, retry logging, the 400 responses), the decoding of the body and its `values` lookup, and the `json.dumps` serialisation of the response: `ComposeResponse` takes the decoded `values` list and returns the list of output records, or the exception that ends the batch.
- Environment configuration, the `openai` module globals and logging.
- LangChain chain and prompt construction, the LLM and embedding calls, Pinecone, `performRedisSearch` and `performCogSearch`: each call is replaced by its outcome for the record (`QaServices`). Building the model and chains is one outcome (`setup`), which also covers the `map_rerank` branch building its chain from the request's `chainType` rather than the override.
- The prompt text: the rendered prompt is an input (`prompt`); which template renders it for each chain type is not modelled.
- The values of `top`, `temperature`, `tokenLength`, the question text and the index namespace only reach the external services; their effect on the results is not modelled, and `temperature` is an opaque value.
- Fragment metadata: Pinecone and Redis metadata values and enterprise-search hit values (`SearchHit`) are modelled as strings. A non-string `source` (Pinecone, Redis) or `sourcefile` (enterprise search, for example `null`) would make `"\n" + …` raise `TypeError` when the answer is cited: for Pinecone the outer handler would then return `None`, for Redis and the enterprise search the branch would return the fail-soft record. Those cases are not modelled.
- Exception texts from external services are whatever the outcome carries; texts raised by Python itself follow CPython 3.11.
- The SQL connection string, `SQLDatabase` and the SQL chain: the chain's output dictionary, or the exception raised while building or running it, is an input.
- `app/frontend/src/pages/sqlagent/SqlAgent.tsx`, `app/frontend/src/index.tsx` and `src/index.tsx`: page rendering, fetches and routing.
- Speech recognition (`startRecording`, `stopRecording`, `isRecording`) and the JSX of `QuestionInput`. React applies state updates at the next render; the model applies them immediately, which gives the same state after each handler. The render itself is the `SyncUpdateQuestion` call, which a caller makes between events, as the scenario methods do; the class does not run it on its own.
- QuestionAnswering.NormalizeFollowup: no absence property is claimed for the follow-up text, because removing "NEXT QUESTIONS:" can create a new occurrence (`FollowupLabelCanSurvive`).

=== FILE: batch.dfy ===
/** The batch record protocol shared by the question-answering and the SQL
    endpoints: the shape of an output record, the validation of an input record,
    and the meaning of the `ComposeResponse` loop, which walks the `values` array in
    order, appends every record that `TransformValue` returns (skipping `None`), and
    stops the whole batch at the first exception that `TransformValue` lets escape. */
module Batch {

  import opened Values

  /** `{"recordId": id, "data": d}` or `{"recordId": id, "errors": [{"message": m}, ...]}`. */
  datatype OutputRecord<D> =
    | DataRecord(recordId: Json, data: D)
    | ErrorRecord(recordId: Json, errors: seq<string>)

  const DataRequired: string := "AssertionError:'data' field is required."
  const TextRequired: string := "AssertionError:'text' field is required in 'data' object."
  const CouldNotComplete: string := "Could not complete operation for record."

  /** The result of the validation block: both assertions held, or one failed. */
  datatype Check = Passed | Failed(message: string)

  /** The validation block of `TransformValue` on a record already known to be a
      dictionary: `assert 'data' in record`, then `assert 'text' in data`. A failed
      assertion is caught and reported; the `TypeError` that `'text' in data` raises
      when `data` is not a container matches none of the handlers and escapes. */
  function Validate(record: map<string, Json>): (r: Outcome<Check>)
    ensures "data" !in record ==> r == Returned(Failed(DataRequired))
    ensures r.Raised? <==> "data" in record && !IsContainer(record["data"])
    ensures r.Raised? ==> r.error.kind == TypeError
    ensures "data" in record && record["data"].JObj? ==>
              r == Returned(if "text" in record["data"].fields then Passed else Failed(TextRequired))
  {
    if "data" !in record then Returned(Failed(DataRequired))
    else
      match Membership("text", record["data"])
      case Raised(e) => Raised(e)
      case Returned(found) => Returned(if found then Passed else Failed(TextRequired))
  }

  /** A record that `TransformValue` handles without raising: a dictionary with a
      `recordId` whose `data`, when present, supports `in`. */
  predicate Processable(record: Json) {
    && record.JObj?
    && "recordId" in record.fields
    && ("data" in record.fields ==> IsContainer(record.fields["data"]))
  }

  /** What `ComposeResponse` produces from the outcomes of `TransformValue` on each
      record, in order: the returned records without the `None`s, or the first
      exception raised. */
  function Collect<R>(outs: seq<Outcome<Option<R>>>): Outcome<seq<R>>
    decreases |outs|
  {
    if outs == [] then Returned([])
    else
      match Collect(outs[..|outs| - 1])
      case Raised(e) => Raised(e)
      case Returned(acc) =>
        match outs[|outs| - 1]
        case Raised(e) => Raised(e)
        case Returned(None) => Returned(acc)
        case Returned(Some(x)) => Returned(acc + [x])
  }

  /** The response never holds more records than the request. */
  lemma {:induction false} CollectBound<R>(outs: seq<Outcome<Option<R>>>)
    ensures Collect(outs).Returned? ==> |Collect(outs).value| <= |outs|
    decreases |outs|
  {
    if outs != [] {
      CollectBound(outs[..|outs| - 1]);
    }
  }

  /** Once a prefix of the batch has raised, the whole batch raises the same exception. */
  lemma {:induction false} CollectPrefixRaised<R>(outs: seq<Outcome<Option<R>>>, n: nat)
    requires n <= |outs| && Collect(outs[..n]).Raised?
    ensures Collect(outs) == Collect(outs[..n])
    decreases |outs| - n
  {
    if n < |outs| {
      var m := |outs| - 1;
      assert outs[..m][..n] == outs[..n];
      CollectPrefixRaised(outs[..m], n);
    } else {
      assert outs[..n] == outs;
    }
  }

  /** A batch in which no record raises returns. */
  lemma {:induction false} CollectNoRaise<R>(outs: seq<Outcome<Option<R>>>)
    requires forall j :: 0 <= j < |outs| ==> outs[j].Returned?
    ensures Collect(outs).Returned?
    decreases |outs|
  {
    if outs != [] {
      CollectNoRaise(outs[..|outs| - 1]);
    }
  }

  /** A batch that returns had no record that raised. */
  lemma {:induction false} CollectReturnedNoRaise<R>(outs: seq<Outcome<Option<R>>>)
    ensures Collect(outs).Returned? ==> forall j :: 0 <= j < |outs| ==> outs[j].Returned?
    decreases |outs|
  {
    if outs != [] {
      CollectReturnedNoRaise(outs[..|outs| - 1]);
    }
  }

  /** The first record that raises decides the outcome of the whole batch. */
  lemma CollectFirstRaise<R>(outs: seq<Outcome<Option<R>>>, k: nat)
    requires k < |outs| && outs[k].Raised?
    requires forall j :: 0 <= j < k ==> outs[j].Returned?
    ensures Collect(outs) == Raised(outs[k].error)
  {
    CollectNoRaise(outs[..k]);
    assert outs[..k + 1][..k] == outs[..k];
    CollectPrefixRaised(outs, k + 1);
  }

  /** When every record yields an output record, the response holds exactly those
      records, one per request record, in request order. */
  lemma {:induction false} CollectOneToOne<R>(outs: seq<Outcome<Option<R>>>)
    requires forall j :: 0 <= j < |outs| ==> outs[j].Returned? && outs[j].value.Some?
    ensures Collect(outs).Returned? && |Collect(outs).value| == |outs|
    ensures forall j :: 0 <= j < |outs| ==> Collect(outs).value[j] == outs[j].value.value
    decreases |outs|
  {
    if outs != [] {
      CollectOneToOne(outs[..|outs| - 1]);
    }
  }
}

=== FILE: question_answering.dfy ===
/** The question-answering endpoint: `FindAnswer`, which resolves the per-record
    overrides, dispatches on the approach and the index backend, and turns the
    completion service's raw text into the answer record, and the batch protocol
    around it (`TransformValue`, `ComposeResponse`).

    The LLM, the embedding service, the three retrieval backends and LangChain's
    chain machinery are not modelled: what each call returns or raises, for the
    record being processed, is an input (`QaServices`). */
module QuestionAnswering {

  import opened Values
  import opened Strings
  import opened Batch

  /** A LangChain `Document`: a retrieved fragment's text and its metadata. */
  datatype Doc = Doc(pageContent: string, metadata: map<string, string>)

  /** One result dictionary of the enterprise search index. */
  type SearchHit = map<string, string>

  /** The four chain types for which a `qaChain` is built. */
  datatype Strategy = Stuff | MapRerank | MapReduce | Refine

  /** The overrides after defaulting; the values are passed on unchanged to the
      retrieval and completion calls. */
  datatype Settings = Settings(topK: Json, chainType: Json, temperature: Json, tokenLength: Json)

  /** `data_points`: the fragments' contents, or the empty string of a fail-soft record. */
  datatype DataPoints = Contents(items: seq<string>) | EmptyText

  /** The answer dictionary `{data_points, answer, thoughts, sources, nextQuestions, error}`. */
  datatype Answer = Answer(
    dataPoints: DataPoints,
    answer: string,
    thoughts: string,
    sources: string,
    nextQuestions: string,
    error: string)

  /** What `FindAnswer` returns: `None`, the placeholder string, or an answer dictionary. */
  datatype FindResult = NoResult | Placeholder(text: string) | Answered(record: Answer)

  /** The outcomes of the external calls made while answering one record:
      building the LLM, the embeddings and the chains (`setup`); the Pinecone or
      Redis search, including the decoding of Redis metadata (`retrieval`); the
      enterprise search, which may find nothing (`search`); the question-answering
      and follow-up completions (`qaOutput`, `followupOutput`); and the primary
      prompt as LangChain renders it over the fragments (`prompt`). */
  datatype QaServices = QaServices(
    setup: Outcome<()>,
    retrieval: Outcome<seq<Doc>>,
    search: Outcome<Option<seq<SearchHit>>>,
    qaOutput: Outcome<string>,
    followupOutput: Outcome<string>,
    prompt: string)

  const Tbd: string := "{'answer': 'TBD', 'sources': ''}"
  const Refusal: string := "I don't know"
  const RedisLabel: string := "Working on fixing Redis Implementation - Error : "
  const CogSearchLabel: string := "Working on fixing Cognitive Search Implementation - Error : "
  const NoResultsFound: string := "No results found"
  const ThoughtsHeader: string := "<br><br>Prompt:<br>"
  /** `str(e)` of the `UnboundLocalError` raised when `qaChain` was never assigned. */
  const UnboundQaChain: string := "cannot access local variable 'qaChain' where it is not associated with a value"

  // ---------------------------------------------------------------------------
  // Overrides

  /** `overrides.get(key) or default` for the four recognised options; any value
      other than a dictionary has no `get` and raises `AttributeError`. */
  function ResolveOverrides(overrides: Json): (r: Outcome<Settings>)
    ensures r.Returned? <==> overrides.JObj?
    ensures r.Raised? ==> r.error.kind == AttributeError
    ensures r.Returned? ==>
      var f := overrides.fields;
      && ("top" in f && Truthy(f["top"]) ==> r.value.topK == f["top"])
      && ("top" !in f || !Truthy(f["top"]) ==> r.value.topK == JInt(5))
      && ("chainType" in f && Truthy(f["chainType"]) ==> r.value.chainType == f["chainType"])
      && ("chainType" !in f || !Truthy(f["chainType"]) ==> r.value.chainType == JStr("stuff"))
      && ("temperature" in f && Truthy(f["temperature"]) ==> r.value.temperature == f["temperature"])
      && ("temperature" !in f || !Truthy(f["temperature"]) ==> r.value.temperature == JFloat(0.3))
      && ("tokenLength" in f && Truthy(f["tokenLength"]) ==> r.value.tokenLength == f["tokenLength"])
      && ("tokenLength" !in f || !Truthy(f["tokenLength"]) ==> r.value.tokenLength == JInt(500))
  {
    match overrides
    case JObj(f) =>
      Returned(Settings(
        Or(DictGet(f, "top"), JInt(5)),
        Or(DictGet(f, "chainType"), JStr("stuff")),
        Or(DictGet(f, "temperature"), JFloat(0.3)),
        Or(DictGet(f, "tokenLength"), JInt(500))))
    case _ => Raised(Exc(AttributeError, "'" + TypeName(overrides) + "' object has no attribute 'get'"))
  }

  /** Every resolved option is truthy: a falsy override can never survive defaulting. */
  lemma ResolvedSettingsTruthy(overrides: Json)
    requires overrides.JObj?
    ensures var s := ResolveOverrides(overrides).value;
      Truthy(s.topK) && Truthy(s.chainType) && Truthy(s.temperature) && Truthy(s.tokenLength)
  {
  }

  /** The chain type for which a `qaChain` is built, if any. */
  function StrategyOf(chainType: Json): (r: Option<Strategy>)
    ensures r.Some? <==> chainType in {JStr("stuff"), JStr("map_rerank"), JStr("map_reduce"), JStr("refine")}
  {
    if chainType == JStr("stuff") then Some(Stuff)
    else if chainType == JStr("map_rerank") then Some(MapRerank)
    else if chainType == JStr("map_reduce") then Some(MapReduce)
    else if chainType == JStr("refine") then Some(Refine)
    else None
  }

  // ---------------------------------------------------------------------------
  // Post-processing of the completion output

  /** The labels the normalisation rewrites cannot overlap their replacements. */
  lemma LabelsSeparated()
    ensures Separated("Sources:", "SOURCES:")
    ensures Separated("Next Questions:", "NEXT QUESTIONS:")
    ensures Separated("Sources:", "NEXT QUESTIONS:")
    ensures Separated("\n", "<br>")
  {
    SourcesSeparated("Sources:", "SOURCES:");
    NextQuestionsSeparated("Next Questions:", "NEXT QUESTIONS:");
    SourcesNotInNextQuestions("Sources:", "NEXT QUESTIONS:");
    NewlineSeparated("\n", "<br>");
  }

  // The four lemmas below take their strings as parameters pinned by the precondition,
  // because Dafny unfolds a recursive predicate applied to string literals without bound.
  lemma SourcesSeparated(q: string, rep: string)
    requires q == "Sources:" && rep == "SOURCES:"
    ensures Separated(q, rep)
  {
    SkipMismatched(q, 1, 8, rep);
    SkipMismatched(rep, 7, 8, q);
    assert !Comparable(rep, 6, q, 0);
    SkipMismatched(rep, 1, 6, q);
  }

  lemma NextQuestionsSeparated(q: string, rep: string)
    requires q == "Next Questions:" && rep == "NEXT QUESTIONS:"
    ensures Separated(q, rep)
  {
    SkipMismatched(q, 1, 15, rep);
    SkipMismatched(rep, 13, 15, q);
    SkipMismatched(rep, 1, 12, q);
  }

  lemma SourcesNotInNextQuestions(q: string, rep: string)
    requires q == "Sources:" && rep == "NEXT QUESTIONS:"
    ensures Separated(q, rep)
  {
    SkipMismatched(q, 0, 8, rep);
    SkipMismatched(rep, 14, 15, q);
    SkipMismatched(rep, 9, 13, q);
    SkipMismatched(rep, 1, 8, q);
  }

  lemma NewlineSeparated(q: string, rep: string)
    requires q == "\n" && rep == "<br>"
    ensures Separated(q, rep)
  {
    SkipMismatched(rep, 1, 4, q);
  }

  /** `.replace("Answer: ", '').replace("Sources:", 'SOURCES:').replace("Next Questions:", 'NEXT QUESTIONS:')`:
      afterwards neither mixed-case label is left. */
  function NormalizeAnswer(raw: string): (r: string)
    ensures !Contains(r, "Sources:") && !Contains(r, "Next Questions:")
  {
    var a := Replace(raw, "Answer: ", "");
    var b := Replace(a, "Sources:", "SOURCES:");
    LabelsSeparated();
    ReplaceRemovesPattern(a, "Sources:", "SOURCES:");
    ReplaceKeepsAbsent(b, "Next Questions:", "NEXT QUESTIONS:", "Sources:");
    ReplaceRemovesPattern(b, "Next Questions:", "NEXT QUESTIONS:");
    Replace(b, "Next Questions:", "NEXT QUESTIONS:")
  }

  /** The follow-up text: the same chain of replacements, then `.replace('NEXT QUESTIONS:', '')`. */
  function NormalizeFollowup(raw: string): string {
    Replace(NormalizeAnswer(raw), "NEXT QUESTIONS:", "")
  }

  /** Removing the label can join its two halves into a new label, so the
      follow-up text may still hold "NEXT QUESTIONS:": from
      "NEXT NEXT QUESTIONS:QUESTIONS:" it keeps exactly "NEXT QUESTIONS:". The label is
      a parameter pinned by the precondition so that `Replace` is not unfolded on a
      literal. */
  lemma FollowupLabelCanSurvive(heading: string)
    requires heading == "NEXT QUESTIONS:"
    ensures NormalizeFollowup("NEXT " + heading + heading[5..]) == heading
  {
    var s := "NEXT " + heading + heading[5..];
    assert 'A' !in s && 'o' !in s && 'e' !in s;
    NormalizeUpperCase(s);
    JoinedLabel(heading);
  }

  /** Text in upper case is left alone by the answer normalisation. */
  lemma NormalizeUpperCase(s: string)
    requires 'A' !in s && 'o' !in s && 'e' !in s
    ensures NormalizeAnswer(s) == s
  {
    assert 'A' == "Answer: "[0] && 'o' == "Sources:"[1] && 'e' == "Next Questions:"[1];
    ReplaceWithoutChar(s, "Answer: ", "", 'A');
    ReplaceWithoutChar(s, "Sources:", "SOURCES:", 'o');
    ReplaceWithoutChar(s, "Next Questions:", "NEXT QUESTIONS:", 'e');
  }

  /** Removing a label that starts with "NEXT " from "NEXT " + label + the label's tail
      leaves the label. */
  lemma JoinedLabel(heading: string)
    requires |heading| == 15 && heading[0] == 'N' && heading[5] == 'Q' && heading[..5] == "NEXT "
    ensures Replace("NEXT " + heading + heading[5..], heading, "") == heading
  {
    var tail := heading[5..];
    assert heading == "NEXT " + tail;
    LabelThenTail(heading, tail);
    SkipNextPrefix(heading, heading + tail);
    assert "NEXT " + heading + tail == "NEXT " + (heading + tail);
  }

  lemma LabelThenTail(heading: string, tail: string)
    requires |heading| == 15 && |tail| == 10
    ensures Replace(heading + tail, heading, "") == tail
  {
    ReplaceMatched(heading, tail, "");
  }

  /** No occurrence of the label starts inside a leading "NEXT " followed by "N". */
  lemma SkipNextPrefix(heading: string, t: string)
    requires |heading| == 15 && heading[0] == 'N' && heading[5] == 'Q' && |t| == 25 && t[0] == 'N'
    ensures Replace("NEXT " + t, heading, "") == "NEXT " + Replace(t, heading, "")
  {
    var t4 := " " + t;
    var t3 := "T" + t4;
    var t2 := "X" + t3;
    var t1 := "E" + t2;
    ReplaceMismatched(' ', t, heading, "", 0);
    ReplaceMismatched('T', t4, heading, "", 0);
    ReplaceMismatched('X', t3, heading, "", 0);
    ReplaceMismatched('E', t2, heading, "", 0);
    ReplaceMismatched('N', t1, heading, "", 5);
    assert "NEXT " + t == "N" + t1;
  }

  /** `"<br><br>Prompt:<br>" + prompt.replace('\n', '<br>')`: a single line of HTML. */
  function Thoughts(prompt: string): (r: string)
    ensures '\n' !in r
    ensures StartsWith(r, ThoughtsHeader)
  {
    var body := Replace(prompt, "\n", "<br>");
    LabelsSeparated();
    ReplaceRemovesPattern(prompt, "\n", "<br>");
    NotContainsChar(body, '\n');
    ThoughtsHeader + body
  }

  /** A prompt of one line appears in the trace unchanged after the header. */
  lemma ThoughtsOfOneLine(prompt: string)
    requires '\n' !in prompt
    ensures Thoughts(prompt) == ThoughtsHeader + prompt
  {
    ReplaceWithoutChar(prompt, "\n", "<br>", '\n');
  }

  /** The first line break of the prompt becomes `<br>` between the first line and
      the trace of the rest; with `ThoughtsOfOneLine` this fixes the trace of every
      prompt, line by line. */
  lemma ThoughtsBreaksLine(line: string, rest: string)
    requires '\n' !in line
    ensures Thoughts(line + "\n" + rest) == Thoughts(line) + "<br>" + Thoughts(rest)[|ThoughtsHeader|..]
  {
    ThoughtsOfOneLine(line);
    assert line + "\n" + rest == line + ("\n" + rest);
    ReplaceSkipsFreePrefix(line, "\n" + rest, '\n', "<br>");
    ReplaceMatched("\n", rest, "<br>");
    assert (ThoughtsHeader + Replace(rest, "\n", "<br>"))[|ThoughtsHeader|..] == Replace(rest, "\n", "<br>");
  }

  /** The page contents of the fragments, in retrieval order (`rawDocs`). */
  function PageContents(docs: seq<Doc>): (r: seq<string>)
    ensures |r| == |docs|
    ensures forall i :: 0 <= i < |docs| ==> r[i] == docs[i].pageContent
    decreases |docs|
  {
    if docs == [] then [] else PageContents(docs[..|docs| - 1]) + [docs[|docs| - 1].pageContent]
  }

  /** The append loop that builds `rawDocs`. */
  method CollectRawDocs(docs: seq<Doc>) returns (rawDocs: seq<string>)
    ensures rawDocs == PageContents(docs)
  {
    rawDocs := [];
    var i := 0;
    while i < |docs|
      invariant 0 <= i <= |docs|
      invariant rawDocs == PageContents(docs[..i])
    {
      assert docs[..i + 1][..i] == docs[..i];
      rawDocs := rawDocs + [docs[i].pageContent];
      i := i + 1;
    }
    assert docs[..i] == docs;
  }

  /** Everything after the question-answering completion: normalise the answer, run
      the follow-up completion, suppress sources and follow-up questions on a
      refusal, otherwise cite the first fragment's `source` (which raises
      `IndexError` on no fragments and `KeyError` on a fragment without a source). */
  function Finish(docs: seq<Doc>, rawAnswer: string, followup: Outcome<string>, prompt: string): (r: Outcome<Answer>)
    ensures followup.Raised? ==> r == Raised(followup.error)
    ensures r.Returned? ==>
      && r.value.dataPoints == Contents(PageContents(docs))
      && r.value.answer == NormalizeAnswer(rawAnswer)
      && r.value.thoughts == Thoughts(prompt)
      && r.value.error == ""
      && !Contains(r.value.answer, "Sources:") && !Contains(r.value.answer, "Next Questions:")
      && '\n' !in r.value.thoughts && StartsWith(r.value.thoughts, ThoughtsHeader)
    ensures r.Returned? && Contains(r.value.answer, Refusal) ==>
      r.value.sources == "" && r.value.nextQuestions == ""
    ensures r.Returned? && !Contains(r.value.answer, Refusal) ==>
      && docs != [] && "source" in docs[0].metadata && r.value.sources == "\n" + docs[0].metadata["source"]
      && r.value.nextQuestions == NormalizeFollowup(followup.value)
    ensures followup.Returned? && Contains(NormalizeAnswer(rawAnswer), Refusal) ==> r.Returned?
    ensures followup.Returned? && !Contains(NormalizeAnswer(rawAnswer), Refusal) ==>
      (r.Returned? <==> docs != [] && "source" in docs[0].metadata)
  {
    var answer := NormalizeAnswer(rawAnswer);
    match followup
    case Raised(e) => Raised(e)
    case Returned(text) =>
      var thoughts := Thoughts(prompt);
      var rawDocs := PageContents(docs);
      if Contains(answer, Refusal) then
        Returned(Answer(Contents(rawDocs), answer, thoughts, "", "", ""))
      else if docs == [] then
        Raised(Exc(IndexError, "list index out of range"))
      else if "source" !in docs[0].metadata then
        Raised(Exc(KeyError, KeyRepr("source")))
      else
        Returned(Answer(Contents(rawDocs), answer, thoughts, "\n" + docs[0].metadata["source"], NormalizeFollowup(text), ""))
  }

  /** Run the question-answering chain over the fragments and finish the answer; with
      an unrecognised chain type `qaChain` was never bound. */
  function Complete(strategy: Option<Strategy>, docs: seq<Doc>, s: QaServices): Outcome<Answer> {
    if strategy.None? then Raised(Exc(UnboundLocalError, UnboundQaChain))
    else
      match s.qaOutput
      case Raised(e) => Raised(e)
      case Returned(text) => Finish(docs, text, s.followupOutput, s.prompt)
  }

  /** The fail-soft record of the Redis and enterprise-search branches. */
  function FailSoft(heading: string, e: Exc): Answer {
    Answer(EmptyText, heading + e.message, "", "", "", e.message)
  }

  // ---------------------------------------------------------------------------
  // Backends

  /** The Pinecone branch: it has no handler of its own, so every exception reaches
      the outer handler and `FindAnswer` returns `None`. */
  function Pinecone(strategy: Option<Strategy>, s: QaServices): FindResult {
    match s.retrieval
    case Raised(_) => NoResult
    case Returned(docs) =>
      match Complete(strategy, docs, s)
      case Raised(_) => NoResult
      case Returned(a) => Answered(a)
  }

  /** The Redis branch, with its own fail-soft handler. */
  function Redis(strategy: Option<Strategy>, s: QaServices): FindResult {
    match s.retrieval
    case Raised(e) => Answered(FailSoft(RedisLabel, e))
    case Returned(docs) =>
      match Complete(strategy, docs, s)
      case Raised(e) => Answered(FailSoft(RedisLabel, e))
      case Returned(a) => Answered(a)
  }

  /** `Document(page_content=doc['content'], metadata={"id": doc['id'], "source": doc['sourcefile']})` */
  function HitToDoc(hit: SearchHit): (r: Outcome<Doc>)
    ensures r.Returned? <==> "content" in hit && "id" in hit && "sourcefile" in hit
  {
    if "content" !in hit then Raised(Exc(KeyError, KeyRepr("content")))
    else if "id" !in hit then Raised(Exc(KeyError, KeyRepr("id")))
    else if "sourcefile" !in hit then Raised(Exc(KeyError, KeyRepr("sourcefile")))
    else Returned(Doc(hit["content"], map["id" := hit["id"], "source" := hit["sourcefile"]]))
  }

  /** The list comprehension over the search hits: one fragment per hit, in hit
      order, whose `source` is the hit's `sourcefile`; the first incomplete hit raises. */
  function HitsToDocs(hits: seq<SearchHit>): (r: Outcome<seq<Doc>>)
    ensures r.Returned? <==> forall i :: 0 <= i < |hits| ==> HitToDoc(hits[i]).Returned?
    ensures r.Returned? ==> |r.value| == |hits|
    ensures r.Returned? ==> forall i :: 0 <= i < |hits| ==>
      && r.value[i].pageContent == hits[i]["content"]
      && r.value[i].metadata == map["id" := hits[i]["id"], "source" := hits[i]["sourcefile"]]
    decreases |hits|
  {
    if hits == [] then Returned([])
    else
      match HitToDoc(hits[0])
      case Raised(e) => Raised(e)
      case Returned(d) =>
        match HitsToDocs(hits[1..])
        case Raised(e) => Raised(e)
        case Returned(ds) => Returned([d] + ds)
  }

  /** The fragments of an enterprise search: a single synthetic fragment without
      metadata when the search returns `None`. */
  function SearchDocs(result: Option<seq<SearchHit>>): Outcome<seq<Doc>> {
    match result
    case None => Returned([Doc(NoResultsFound, map[])])
    case Some(hits) => HitsToDocs(hits)
  }

  /** The enterprise-search branch, with its own fail-soft handler. */
  function CogSearch(strategy: Option<Strategy>, s: QaServices): FindResult {
    match s.search
    case Raised(e) => Answered(FailSoft(CogSearchLabel, e))
    case Returned(result) =>
      match SearchDocs(result)
      case Raised(e) => Answered(FailSoft(CogSearchLabel, e))
      case Returned(docs) =>
        match Complete(strategy, docs, s)
        case Raised(e) => Answered(FailSoft(CogSearchLabel, e))
        case Returned(a) => Answered(a)
  }

  /** `FindAnswer`: resolve the overrides, then dispatch on the approach and, for
      `rtr`, on the index type. Every exception outside the per-backend handlers is
      caught by the outer handler, after which the function returns `None`. */
  function FindAnswer(indexType: string, approach: Json, overrides: Json, s: QaServices): FindResult {
    match ResolveOverrides(overrides)
    case Raised(_) => NoResult
    case Returned(settings) =>
      if approach == JStr("rtr") then
        if s.setup.Raised? then NoResult
        else
          var strategy := StrategyOf(settings.chainType);
          if indexType == "pinecone" then Pinecone(strategy, s)
          else if indexType == "redis" then Redis(strategy, s)
          else if indexType == "cogsearch" then CogSearch(strategy, s)
          else if indexType == "milvus" then Placeholder(Tbd)
          else NoResult
      else if approach == JStr("rrr") || approach == JStr("rca") then Placeholder(Tbd)
      else NoResult
  }

  // ---------------------------------------------------------------------------
  // Properties of FindAnswer

  /** The placeholder answers and the `None` fall-throughs of the dispatch. */
  lemma Dispatch(indexType: string, approach: Json, overrides: Json, s: QaServices)
    ensures !overrides.JObj? ==> FindAnswer(indexType, approach, overrides, s) == NoResult
    ensures overrides.JObj? && (approach == JStr("rrr") || approach == JStr("rca")) ==>
      FindAnswer(indexType, approach, overrides, s) == Placeholder(Tbd)
    ensures overrides.JObj? && approach == JStr("rtr") && indexType == "milvus" && s.setup.Returned? ==>
      FindAnswer(indexType, approach, overrides, s) == Placeholder(Tbd)
    ensures approach !in {JStr("rtr"), JStr("rrr"), JStr("rca")} ==>
      FindAnswer(indexType, approach, overrides, s) == NoResult
    ensures approach == JStr("rtr") && indexType !in {"pinecone", "redis", "cogsearch", "milvus"} ==>
      FindAnswer(indexType, approach, overrides, s) == NoResult
    ensures approach == JStr("rtr") && s.setup.Raised? ==>
      FindAnswer(indexType, approach, overrides, s) == NoResult
  {
  }

  /** A refusal never carries a citation or follow-up questions, whatever the backend
      and whether or not it failed softly. */
  lemma RefusalSuppression(indexType: string, approach: Json, overrides: Json, s: QaServices)
    requires FindAnswer(indexType, approach, overrides, s).Answered?
    requires Contains(FindAnswer(indexType, approach, overrides, s).record.answer, Refusal)
    ensures FindAnswer(indexType, approach, overrides, s).record.sources == ""
    ensures FindAnswer(indexType, approach, overrides, s).record.nextQuestions == ""
  {
  }

  /** The Redis and enterprise-search branches always produce an answer dictionary:
      either a composed one, or a fail-soft one whose answer is the backend label
      followed by the error and whose other fields are empty. */
  lemma FailSoftBackends(indexType: string, approach: Json, overrides: Json, s: QaServices)
    requires indexType == "redis" || indexType == "cogsearch"
    requires approach == JStr("rtr") && overrides.JObj? && s.setup.Returned?
    ensures FindAnswer(indexType, approach, overrides, s).Answered?
    ensures var a := FindAnswer(indexType, approach, overrides, s).record;
      a.dataPoints.EmptyText? ==>
        && a.answer == (if indexType == "redis" then RedisLabel else CogSearchLabel) + a.error
        && a.thoughts == "" && a.sources == "" && a.nextQuestions == ""
    ensures var a := FindAnswer(indexType, approach, overrides, s).record;
      a.dataPoints.Contents? ==> a.error == ""
  {
  }

  /** The chain type that dictionary overrides select, if a `qaChain` is built for it. */
  function ChainOf(overrides: Json): Option<Strategy>
    requires overrides.JObj?
  {
    StrategyOf(ResolveOverrides(overrides).value.chainType)
  }

  /** The Pinecone branch has no handler of its own: whichever step raises (the
      retrieval, the unbound `qaChain`, either completion, or citing `docs[0]`), the
      outer handler swallows it and `FindAnswer` returns `None`. Only a composed
      answer record is ever returned. */
  lemma PineconeFailuresGiveNone(overrides: Json, s: QaServices)
    requires overrides.JObj? && s.setup.Returned?
    ensures s.retrieval.Raised? || ChainOf(overrides).None? || s.qaOutput.Raised? || s.followupOutput.Raised? ==>
      FindAnswer("pinecone", JStr("rtr"), overrides, s) == NoResult
    ensures (&& s.retrieval.Returned? && s.qaOutput.Returned? && !Contains(NormalizeAnswer(s.qaOutput.value), Refusal)
             && (s.retrieval.value == [] || "source" !in s.retrieval.value[0].metadata)) ==>
      FindAnswer("pinecone", JStr("rtr"), overrides, s) == NoResult
    ensures (&& s.retrieval.Returned? && ChainOf(overrides).Some? && s.qaOutput.Returned? && s.followupOutput.Returned?
             && (|| Contains(NormalizeAnswer(s.qaOutput.value), Refusal)
                 || (s.retrieval.value != [] && "source" in s.retrieval.value[0].metadata))) ==>
      FindAnswer("pinecone", JStr("rtr"), overrides, s).Answered?
    ensures var r := FindAnswer("pinecone", JStr("rtr"), overrides, s);
      r.NoResult? || (r.Answered? && r.record.dataPoints.Contents?)
  {
  }

  /** Every exception in the Redis branch becomes the fail-soft record carrying
      `str(e)`, for the first step that raises: the search, the unbound `qaChain`,
      the question-answering completion, the follow-up completion, `docs[0]` or its
      `source`. */
  lemma RedisFailuresFailSoft(overrides: Json, s: QaServices)
    requires overrides.JObj? && s.setup.Returned?
    ensures s.retrieval.Raised? ==>
      FindAnswer("redis", JStr("rtr"), overrides, s) == Answered(FailSoft(RedisLabel, s.retrieval.error))
    ensures s.retrieval.Returned? ==>
      var docs, r := s.retrieval.value, FindAnswer("redis", JStr("rtr"), overrides, s);
      && (ChainOf(overrides).None? ==> r == Answered(FailSoft(RedisLabel, Exc(UnboundLocalError, UnboundQaChain))))
      && (ChainOf(overrides).Some? && s.qaOutput.Raised? ==> r == Answered(FailSoft(RedisLabel, s.qaOutput.error)))
      && (ChainOf(overrides).Some? && s.qaOutput.Returned? && s.followupOutput.Raised? ==>
            r == Answered(FailSoft(RedisLabel, s.followupOutput.error)))
      && (ChainOf(overrides).Some? && s.qaOutput.Returned? && s.followupOutput.Returned?
          && !Contains(NormalizeAnswer(s.qaOutput.value), Refusal) ==>
            && (docs == [] ==> r == Answered(FailSoft(RedisLabel, Exc(IndexError, "list index out of range"))))
            && (docs != [] && "source" !in docs[0].metadata ==>
                  r == Answered(FailSoft(RedisLabel, Exc(KeyError, KeyRepr("source"))))))
  {
  }

  /** Every exception in the enterprise-search branch becomes the fail-soft record
      carrying `str(e)`, for the first step that raises: the search, an incomplete
      hit, the unbound `qaChain`, either completion, `docs[0]` or its `source`. */
  lemma CogSearchFailuresFailSoft(overrides: Json, s: QaServices)
    requires overrides.JObj? && s.setup.Returned?
    ensures s.search.Raised? ==>
      FindAnswer("cogsearch", JStr("rtr"), overrides, s) == Answered(FailSoft(CogSearchLabel, s.search.error))
    ensures s.search.Returned? && s.search.value.Some? && HitsToDocs(s.search.value.value).Raised? ==>
      FindAnswer("cogsearch", JStr("rtr"), overrides, s) ==
        Answered(FailSoft(CogSearchLabel, HitsToDocs(s.search.value.value).error))
    ensures s.search.Returned? && SearchDocs(s.search.value).Returned? ==>
      var docs, r := SearchDocs(s.search.value).value, FindAnswer("cogsearch", JStr("rtr"), overrides, s);
      && (ChainOf(overrides).None? ==> r == Answered(FailSoft(CogSearchLabel, Exc(UnboundLocalError, UnboundQaChain))))
      && (ChainOf(overrides).Some? && s.qaOutput.Raised? ==> r == Answered(FailSoft(CogSearchLabel, s.qaOutput.error)))
      && (ChainOf(overrides).Some? && s.qaOutput.Returned? && s.followupOutput.Raised? ==>
            r == Answered(FailSoft(CogSearchLabel, s.followupOutput.error)))
      && (ChainOf(overrides).Some? && s.qaOutput.Returned? && s.followupOutput.Returned?
          && !Contains(NormalizeAnswer(s.qaOutput.value), Refusal) ==>
            && (docs == [] ==> r == Answered(FailSoft(CogSearchLabel, Exc(IndexError, "list index out of range"))))
            && (docs != [] && "source" !in docs[0].metadata ==>
                  r == Answered(FailSoft(CogSearchLabel, Exc(KeyError, KeyRepr("source"))))))
  {
  }

  /** A composed answer from Pinecone or Redis lists the retrieved fragments'
      contents in order and cites, unless it is a refusal, exactly the first
      fragment's source; its answer carries no mixed-case label. */
  lemma RetrievalAnswerCitesFirstFragment(indexType: string, approach: Json, overrides: Json, s: QaServices)
    requires indexType == "pinecone" || indexType == "redis"
    requires FindAnswer(indexType, approach, overrides, s).Answered?
    requires FindAnswer(indexType, approach, overrides, s).record.dataPoints.Contents?
    ensures s.retrieval.Returned? && s.qaOutput.Returned? && s.followupOutput.Returned?
    ensures var a := FindAnswer(indexType, approach, overrides, s).record;
      && a.dataPoints.items == PageContents(s.retrieval.value)
      && a.answer == NormalizeAnswer(s.qaOutput.value)
      && a.thoughts == Thoughts(s.prompt)
      && (!Contains(a.answer, Refusal) ==> a.nextQuestions == NormalizeFollowup(s.followupOutput.value))
      && !Contains(a.answer, "Sources:") && !Contains(a.answer, "Next Questions:")
      && (Contains(a.answer, Refusal) ==> a.sources == "")
      && (!Contains(a.answer, Refusal) ==>
            s.retrieval.value != [] && "source" in s.retrieval.value[0].metadata
            && a.sources == "\n" + s.retrieval.value[0].metadata["source"])
  {
  }

  /** A composed answer from the enterprise search cites, unless it is a refusal,
      the `sourcefile` of the first hit; when the search found nothing the only
      fragment is "No results found" and the answer must be a refusal. */
  lemma SearchAnswerCitesFirstHit(approach: Json, overrides: Json, s: QaServices)
    requires FindAnswer("cogsearch", approach, overrides, s).Answered?
    requires FindAnswer("cogsearch", approach, overrides, s).record.dataPoints.Contents?
    ensures s.search.Returned? && s.qaOutput.Returned? && s.followupOutput.Returned?
    ensures var a := FindAnswer("cogsearch", approach, overrides, s).record;
      && a.answer == NormalizeAnswer(s.qaOutput.value)
      && a.thoughts == Thoughts(s.prompt)
      && (!Contains(a.answer, Refusal) ==> a.nextQuestions == NormalizeFollowup(s.followupOutput.value))
    ensures var a := FindAnswer("cogsearch", approach, overrides, s).record;
      s.search.value.None? ==>
        a.dataPoints.items == [NoResultsFound] && Contains(a.answer, Refusal) && a.sources == ""
    ensures var a := FindAnswer("cogsearch", approach, overrides, s).record;
      s.search.value.Some? && !Contains(a.answer, Refusal) ==>
        var hits := s.search.value.value;
        hits != [] && "sourcefile" in hits[0] && a.sources == "\n" + hits[0]["sourcefile"]
  {
    var a := FindAnswer("cogsearch", approach, overrides, s).record;
    if s.search.value.None? {
      assert PageContents([Doc(NoResultsFound, map[])]) == [NoResultsFound];
    }
  }

  /** With no search result and an answer that is not a refusal, citing the
      synthetic fragment's missing `source` raises `KeyError`, which the
      enterprise-search handler turns into a fail-soft record. */
  lemma NoSearchResultWithoutRefusal(approach: Json, overrides: Json, s: QaServices)
    requires approach == JStr("rtr") && overrides.JObj? && s.setup.Returned?
    requires StrategyOf(ResolveOverrides(overrides).value.chainType).Some?
    requires s.search == Returned(None) && s.qaOutput.Returned? && s.followupOutput.Returned?
    requires !Contains(NormalizeAnswer(s.qaOutput.value), Refusal)
    ensures FindAnswer("cogsearch", approach, overrides, s) ==
      Answered(Answer(EmptyText, CogSearchLabel + "'source'", "", "", "", "'source'"))
  {
  }

  // ---------------------------------------------------------------------------
  // Batch protocol

  /** The inner `try` block of `TransformValue`: read `text`, `approach` and
      `overrides` from `data` and call `FindAnswer`, which never raises. */
  function AnswerRecord(indexType: string, data: Json, s: QaServices): (r: Outcome<FindResult>)
    ensures r.Returned? <==> data.JObj? && "text" in data.fields && "approach" in data.fields && "overrides" in data.fields
  {
    match Subscript(data, "text")
    case Raised(e) => Raised(e)
    case Returned(_) =>
      match Subscript(data, "approach")
      case Raised(e) => Raised(e)
      case Returned(approach) =>
        match Subscript(data, "overrides")
        case Raised(e) => Raised(e)
        case Returned(overrides) => Returned(FindAnswer(indexType, approach, overrides, s))
  }

  /** `TransformValue` for one record. A missing `recordId` raises `KeyError`, which
      the `except AssertionError` around the lookup does not catch, so the
      exception escapes; `None` is never returned. */
  function TransformValue(indexType: string, record: Json, s: QaServices): (r: Outcome<Option<OutputRecord<FindResult>>>)
    ensures r.Raised? <==> !Processable(record)
    ensures record.JObj? && "recordId" !in record.fields ==> r == Raised(Exc(KeyError, KeyRepr("recordId")))
    ensures r.Returned? ==> r.value.Some? && r.value.value.recordId == record.fields["recordId"]
    ensures r.Returned? && "data" !in record.fields ==>
      r.value.value == ErrorRecord(record.fields["recordId"], [DataRequired])
    ensures r.Returned? && "data" in record.fields && record.fields["data"].JObj? ==>
      var id, data := record.fields["recordId"], record.fields["data"].fields;
      && ("text" !in data ==> r.value.value == ErrorRecord(id, [TextRequired]))
      && ("text" in data && ("approach" !in data || "overrides" !in data) ==>
            r.value.value == ErrorRecord(id, [CouldNotComplete]))
      && ("text" in data && "approach" in data && "overrides" in data ==>
            r.value.value == DataRecord(id, FindAnswer(indexType, data["approach"], data["overrides"], s)))
    ensures r.Returned? && "data" in record.fields && !record.fields["data"].JObj? ==>
      r.value.value == ErrorRecord(record.fields["recordId"],
        [if Membership("text", record.fields["data"]) == Returned(true) then CouldNotComplete else TextRequired])
  {
    match Subscript(record, "recordId")
    case Raised(e) => Raised(e)
    case Returned(id) =>
      match Validate(record.fields)
      case Raised(e) => Raised(e)
      case Returned(Failed(m)) => Returned(Some(ErrorRecord(id, [m])))
      case Returned(Passed) =>
        match AnswerRecord(indexType, record.fields["data"], s)
        case Raised(_) => Returned(Some(ErrorRecord(id, [CouldNotComplete])))
        case Returned(answer) => Returned(Some(DataRecord(id, answer)))
  }

  /** `TransformValue` applied to each record; `world(i)` are the outcomes of the
      external calls made for the `i`-th record. */
  function Transforms(indexType: string, values: seq<Json>, world: nat -> QaServices): (r: seq<Outcome<Option<OutputRecord<FindResult>>>>)
    ensures |r| == |values|
    ensures forall i :: 0 <= i < |values| ==> r[i] == TransformValue(indexType, values[i], world(i))
  {
    seq(|values|, i requires 0 <= i < |values| => TransformValue(indexType, values[i], world(i)))
  }

  /** The `ComposeResponse` loop over the `values` array of the request. */
  method ComposeResponse(indexType: string, values: seq<Json>, world: nat -> QaServices)
    returns (r: Outcome<seq<OutputRecord<FindResult>>>)
    ensures r == Collect(Transforms(indexType, values, world))
  {
    ghost var outs := Transforms(indexType, values, world);
    var results := [];
    var i := 0;
    while i < |values|
      invariant 0 <= i <= |values|
      invariant Collect(outs[..i]) == Returned(results)
    {
      var out := TransformValue(indexType, values[i], world(i));
      assert outs[..i + 1][..i] == outs[..i];
      if out.Raised? {
        CollectPrefixRaised(outs, i + 1);
        return Raised(out.error);
      }
      if out.value.Some? {
        results := results + [out.value.value];
      }
      i := i + 1;
    }
    assert outs[..i] == outs;
    return Returned(results);
  }

  /** A batch of processable records yields one output record per input record,
      in order, each echoing its input's `recordId`. */
  lemma BatchEchoesRecordIds(indexType: string, values: seq<Json>, world: nat -> QaServices)
    requires forall i :: 0 <= i < |values| ==> Processable(values[i])
    ensures var r := Collect(Transforms(indexType, values, world));
      r.Returned? && |r.value| == |values|
      && forall i :: 0 <= i < |values| ==> r.value[i].recordId == values[i].fields["recordId"]
  {
    CollectOneToOne(Transforms(indexType, values, world));
  }

  /** A batch that completes had only processable records, and has exactly one
      output record per request record, in order, each echoing its `recordId`. */
  lemma BatchCompleteIsOneToOne(indexType: string, values: seq<Json>, world: nat -> QaServices)
    ensures var r := Collect(Transforms(indexType, values, world));
      r.Returned? ==>
        && |r.value| == |values|
        && forall i :: 0 <= i < |values| ==>
             Processable(values[i]) && r.value[i].recordId == values[i].fields["recordId"]
  {
    var outs := Transforms(indexType, values, world);
    CollectReturnedNoRaise(outs);
    if Collect(outs).Returned? {
      CollectOneToOne(outs);
    }
  }

  /** A record without `recordId` aborts the whole batch with `KeyError` instead of
      being dropped, unless an earlier record already aborted it. */
  lemma BatchAbortsOnMissingRecordId(indexType: string, values: seq<Json>, world: nat -> QaServices, k: nat)
    requires k < |values| && values[k].JObj? && "recordId" !in values[k].fields
    requires forall j :: 0 <= j < k ==> Processable(values[j])
    ensures Collect(Transforms(indexType, values, world)) == Raised(Exc(KeyError, KeyRepr("recordId")))
  {
    CollectFirstRaise(Transforms(indexType, values, world), k);
  }

  /** The response never has more records than the request. */
  lemma BatchBound(indexType: string, values: seq<Json>, world: nat -> QaServices)
    ensures var r := Collect(Transforms(indexType, values, world));
      r.Returned? ==> |r.value| <= |values|
  {
    CollectBound(Transforms(indexType, values, world));
  }
}

=== FILE: question_input.dfy ===
/** The question box of the chat front end: the typed `question`, the last
    `updateQuestion` value that was copied into it (`prevQuestion`), and the rules
    for editing, syncing and sending. The `onSend` callback is modelled by the
    value `SendQuestion` returns; speech input and rendering are not modelled. */
module QuestionInput {

  import opened Values

  /** ECMAScript white space and line terminators, the characters `String.prototype.trim`
      removes. */
  predicate IsWhitespace(c: char) {
    || c == '\t' || c == '\U{000B}' || c == '\U{000C}' || c == ' ' || c == '\U{00A0}' || c == '\U{FEFF}'
    || c == '\U{1680}' || ('\U{2000}' <= c <= '\U{200A}') || c == '\U{202F}' || c == '\U{205F}' || c == '\U{3000}'
    || c == '\n' || c == '\r' || c == '\U{2028}' || c == '\U{2029}'
  }

  /** Every character of `s` is white space. */
  predicate Blank(s: string) {
    forall i :: 0 <= i < |s| ==> IsWhitespace(s[i])
  }

  /** `s` without its leading white space. */
  function TrimStart(s: string): (r: string)
    ensures |r| <= |s| && r == s[|s| - |r|..] && Blank(s[..|s| - |r|])
    ensures r == [] || !IsWhitespace(r[0])
    decreases |s|
  {
    if s != [] && IsWhitespace(s[0]) then
      var r := TrimStart(s[1..]);
      assert s[..|s| - |r|] == [s[0]] + s[1..][..|s[1..]| - |r|];
      r
    else
      s
  }

  /** `s` without its trailing white space. */
  function TrimEnd(s: string): (r: string)
    ensures |r| <= |s| && r == s[..|r|] && Blank(s[|r|..])
    ensures r == [] || !IsWhitespace(r[|r| - 1])
    decreases |s|
  {
    if s != [] && IsWhitespace(s[|s| - 1]) then
      var r := TrimEnd(s[..|s| - 1]);
      assert s[|r|..] == s[..|s| - 1][|r|..] + [s[|s| - 1]];
      r
    else
      s
  }

  /** `s.trim()` */
  function Trim(s: string): string {
    TrimEnd(TrimStart(s))
  }

  /** `!s.trim()`: the trimmed text is empty exactly when the text is all white space. */
  lemma TrimEmptyIffBlank(s: string)
    ensures Trim(s) == "" <==> Blank(s)
  {
    var t := TrimStart(s);
    var k := |s| - |t|;
    if Blank(s) {
      forall i | 0 <= i < |t| ensures IsWhitespace(t[i]) {
        assert t[i] == s[k + i];
      }
    }
    if Trim(s) == "" {
      assert Blank(t[0..]);
      assert s[..k] == s;
    }
  }

  /** `s.length` in JavaScript: the number of UTF-16 code units, two for a
      character outside the Basic Multilingual Plane. */
  function Utf16Length(s: string): (n: nat)
    ensures |s| <= n <= 2 * |s|
    ensures n == |s| <==> forall i :: 0 <= i < |s| ==> s[i] <= '\U{FFFF}'
    decreases |s|
  {
    if s == [] then 0
    else (if s[|s| - 1] <= '\U{FFFF}' then 1 else 2) + Utf16Length(s[..|s| - 1])
  }

  /** The longest text, in UTF-16 code units, an edit can store. */
  const MaxLength: nat := 1000

  class QuestionInput {
    var question: string
    var prevQuestion: string

    /** Both state hooks start from the empty string. */
    constructor ()
      ensures question == "" && prevQuestion == ""
    {
      question := "";
      prevQuestion := "";
    }

    /** `sendQuestionDisabled`: the send button is shown disabled exactly when the
        component is disabled or the question is only white space. */
    function SendQuestionDisabled(disabled: bool): (r: bool)
      reads this
      ensures r <==> disabled || Blank(question)
    {
      TrimEmptyIffBlank(question);
      disabled || Trim(question) == ""
    }

    /** The render-time sync: a non-empty `updateQuestion` that differs from the last
        one copied replaces the question, and is remembered so that it is copied
        only once. */
    method SyncUpdateQuestion(updateQuestion: Option<string>)
      modifies this
      ensures updateQuestion.Some? && updateQuestion.value != "" && old(prevQuestion) != updateQuestion.value ==>
        question == updateQuestion.value && prevQuestion == updateQuestion.value
      ensures updateQuestion.None? || updateQuestion.value == "" || old(prevQuestion) == updateQuestion.value ==>
        question == old(question) && prevQuestion == old(prevQuestion)
      ensures updateQuestion.Some? && updateQuestion.value != "" ==> prevQuestion == updateQuestion.value
    {
      if updateQuestion.Some? && updateQuestion.value != "" && prevQuestion != updateQuestion.value {
        question := updateQuestion.value;
        prevQuestion := updateQuestion.value;
      }
    }

    /** `sendQuestion`: unless sending is disabled, hand the untrimmed question to
        `onSend` (the returned value) and, with `clearOnSend`, clear both fields. */
    method SendQuestion(disabled: bool, clearOnSend: bool) returns (sent: Option<string>)
      modifies this
      ensures sent.Some? <==> !old(SendQuestionDisabled(disabled))
      ensures sent.Some? ==> sent.value == old(question)
      ensures sent.Some? && clearOnSend ==> question == "" && prevQuestion == ""
      ensures sent.None? || !clearOnSend ==> question == old(question) && prevQuestion == old(prevQuestion)
    {
      if disabled || Trim(question) == "" {
        return None;
      }
      sent := Some(question);
      if clearOnSend {
        question := "";
        prevQuestion := "";
      }
    }

    /** `onEnterPress`: Enter without Shift suppresses the newline and sends; any
        other key press is left alone. */
    method OnEnterPress(key: string, shiftKey: bool, disabled: bool, clearOnSend: bool)
      returns (prevented: bool, sent: Option<string>)
      modifies this
      ensures prevented <==> key == "Enter" && !shiftKey
      ensures !prevented ==> sent.None? && question == old(question) && prevQuestion == old(prevQuestion)
      ensures prevented ==> (sent.Some? <==> !old(SendQuestionDisabled(disabled)))
      ensures sent.Some? ==> sent.value == old(question)
      ensures sent.Some? && clearOnSend ==> question == "" && prevQuestion == ""
      ensures sent.None? || !clearOnSend ==> question == old(question) && prevQuestion == old(prevQuestion)
    {
      prevented := key == "Enter" && !shiftKey;
      sent := None;
      if prevented {
        sent := SendQuestion(disabled, clearOnSend);
      }
    }

    /** `onQuestionChange`: an empty or missing value clears the question, a value of
        at most 1000 UTF-16 code units replaces it, and a longer one is ignored. */
    method OnQuestionChange(newValue: Option<string>)
      modifies this
      ensures newValue.None? || newValue.value == "" ==> question == ""
      ensures newValue.Some? && newValue.value != "" && Utf16Length(newValue.value) <= MaxLength ==>
        question == newValue.value
      ensures newValue.Some? && Utf16Length(newValue.value) > MaxLength ==> question == old(question)
      ensures Utf16Length(question) <= MaxLength || question == old(question)
      ensures prevQuestion == old(prevQuestion)
    {
      if newValue.None? || newValue.value == "" {
        question := "";
      } else if Utf16Length(newValue.value) <= MaxLength {
        question := newValue.value;
      }
    }
  }

  /** Once `updateQuestion` has been copied, a later edit survives the next render
      with the same `updateQuestion`. */
  method SyncDoesNotOverwriteEdits(update: string, edit: string) returns (shown: string)
    requires update != "" && edit != "" && Utf16Length(edit) <= MaxLength
    ensures shown == edit
  {
    var box := new QuestionInput();
    box.SyncUpdateQuestion(Some(update));
    box.OnQuestionChange(Some(edit));
    box.SyncUpdateQuestion(Some(update));
    shown := box.question;
  }

  /** Without an `updateQuestion`, sending with `clearOnSend` empties the box, so a
      second send, after the render that follows the first, sends nothing. Every
      render runs the sync, so it is called before each event. */
  method ClearedBoxCannotSend(text: string, update: Option<string>) returns (first: Option<string>, second: Option<string>)
    requires !Blank(text) && Utf16Length(text) <= MaxLength
    requires update.None? || update.value == ""
    ensures first == Some(text) && second.None?
  {
    var box := new QuestionInput();
    box.SyncUpdateQuestion(update);
    box.OnQuestionChange(Some(text));
    box.SyncUpdateQuestion(update);
    first := box.SendQuestion(false, true);
    box.SyncUpdateQuestion(update);
    second := box.SendQuestion(false, true);
  }

  /** With a non-empty `updateQuestion`, clearing on send also clears `prevQuestion`,
      so the next render copies `updateQuestion` back into the box and a second send
      sends it again. */
  method ClearedBoxRefilledBySync(text: string, update: string) returns (first: Option<string>, second: Option<string>)
    requires !Blank(text) && Utf16Length(text) <= MaxLength
    requires !Blank(update)
    ensures first == Some(text) && second == Some(update)
  {
    var box := new QuestionInput();
    box.SyncUpdateQuestion(Some(update));
    box.OnQuestionChange(Some(text));
    box.SyncUpdateQuestion(Some(update));
    first := box.SendQuestion(false, true);
    box.SyncUpdateQuestion(Some(update));
    second := box.SendQuestion(false, true);
  }
}

=== FILE: sql_chain.dfy ===
/** The SQL endpoint: `FindSqlAnswer`, which runs the SQL database chain and
    shapes its output or its failure into an answer record, and the batch protocol
    around it. The database connection, the LLM and the chain itself are not
    modelled: the dictionary the chain returns, or the exception raised anywhere
    while building or running it, is an input. */
module SqlChain {

  import opened Values
  import opened Strings
  import opened Batch

  /** The answer dictionary `{data_points, answer, thoughts, error}`. */
  datatype SqlAnswer = SqlAnswer(dataPoints: seq<Json>, answer: Json, thoughts: Json, error: string)

  /** `FindSqlAnswer`: on success the chain's `result` and `intermediate_steps`; any
      exception, including a missing key in the chain's output, is caught and turned
      into a record with empty answer and thoughts and the exception text. */
  function FindSqlAnswer(run: Outcome<map<string, Json>>): (r: SqlAnswer)
    ensures r.dataPoints == []
    ensures run.Returned? && "result" in run.value && "intermediate_steps" in run.value ==>
      r == SqlAnswer([], run.value["result"], run.value["intermediate_steps"], "")
    ensures run.Raised? ==> r == SqlAnswer([], JStr(""), JStr(""), run.error.message)
    ensures run.Returned? && "result" !in run.value ==>
      r == SqlAnswer([], JStr(""), JStr(""), KeyRepr("result"))
    ensures run.Returned? && "result" in run.value && "intermediate_steps" !in run.value ==>
      r == SqlAnswer([], JStr(""), JStr(""), KeyRepr("intermediate_steps"))
  {
    match run
    case Raised(e) => Failure(e)
    case Returned(out) =>
      match Subscript(JObj(out), "result")
      case Raised(e) => Failure(e)
      case Returned(answer) =>
        match Subscript(JObj(out), "intermediate_steps")
        case Raised(e) => Failure(e)
        case Returned(steps) => SqlAnswer([], answer, steps, "")
  }

  /** The error record of `FindSqlAnswer`'s handler. */
  function Failure(e: Exc): SqlAnswer {
    SqlAnswer([], JStr(""), JStr(""), e.message)
  }

  /** `TransformValue` for one record: the same `recordId` lookup and validation as
      the question-answering endpoint, then `data['text']` and `FindSqlAnswer`. */
  function TransformValue(record: Json, run: Outcome<map<string, Json>>): (r: Outcome<Option<OutputRecord<SqlAnswer>>>)
    ensures r.Raised? <==> !Processable(record)
    ensures record.JObj? && "recordId" !in record.fields ==> r == Raised(Exc(KeyError, KeyRepr("recordId")))
    ensures r.Returned? ==> r.value.Some? && r.value.value.recordId == record.fields["recordId"]
    ensures r.Returned? && "data" !in record.fields ==>
      r.value.value == ErrorRecord(record.fields["recordId"], [DataRequired])
    ensures r.Returned? && "data" in record.fields && record.fields["data"].JObj? ==>
      var id, data := record.fields["recordId"], record.fields["data"].fields;
      && ("text" !in data ==> r.value.value == ErrorRecord(id, [TextRequired]))
      && ("text" in data ==> r.value.value == DataRecord(id, FindSqlAnswer(run)))
    ensures r.Returned? && "data" in record.fields && !record.fields["data"].JObj? ==>
      r.value.value == ErrorRecord(record.fields["recordId"],
        [if Membership("text", record.fields["data"]) == Returned(true) then CouldNotComplete else TextRequired])
  {
    match Subscript(record, "recordId")
    case Raised(e) => Raised(e)
    case Returned(id) =>
      match Validate(record.fields)
      case Raised(e) => Raised(e)
      case Returned(Failed(m)) => Returned(Some(ErrorRecord(id, [m])))
      case Returned(Passed) =>
        match Subscript(record.fields["data"], "text")
        case Raised(_) => Returned(Some(ErrorRecord(id, [CouldNotComplete])))
        case Returned(_) => Returned(Some(DataRecord(id, FindSqlAnswer(run))))
  }

  /** The generic "Could not complete" record arises exactly when `data` is a string or
      a list that holds "text": `data['text']` then raises `TypeError`. */
  lemma GenericErrorOnlyForNonDictData(record: Json, run: Outcome<map<string, Json>>)
    requires TransformValue(record, run).Returned?
    ensures var o := TransformValue(record, run).value.value;
      o == ErrorRecord(record.fields["recordId"], [CouldNotComplete]) <==>
        && "data" in record.fields
        && var data := record.fields["data"];
        || (data.JStr? && Contains(data.s, "text"))
        || (data.JArr? && JStr("text") in data.items)
  {
  }

  /** `TransformValue` applied to each record; `world(i)` is the outcome of the chain
      run for the `i`-th record. */
  function Transforms(values: seq<Json>, world: nat -> Outcome<map<string, Json>>): (r: seq<Outcome<Option<OutputRecord<SqlAnswer>>>>)
    ensures |r| == |values|
    ensures forall i :: 0 <= i < |values| ==> r[i] == TransformValue(values[i], world(i))
  {
    seq(|values|, i requires 0 <= i < |values| => TransformValue(values[i], world(i)))
  }

  /** The `ComposeResponse` loop over the `values` array of the request. */
  method ComposeResponse(values: seq<Json>, world: nat -> Outcome<map<string, Json>>)
    returns (r: Outcome<seq<OutputRecord<SqlAnswer>>>)
    ensures r == Collect(Transforms(values, world))
  {
    ghost var outs := Transforms(values, world);
    var results := [];
    var i := 0;
    while i < |values|
      invariant 0 <= i <= |values|
      invariant Collect(outs[..i]) == Returned(results)
    {
      var out := TransformValue(values[i], world(i));
      assert outs[..i + 1][..i] == outs[..i];
      if out.Raised? {
        CollectPrefixRaised(outs, i + 1);
        return Raised(out.error);
      }
      if out.value.Some? {
        results := results + [out.value.value];
      }
      i := i + 1;
    }
    assert outs[..i] == outs;
    return Returned(results);
  }

  /** A batch of processable records yields one output record per input record, in
      order, each echoing its input's `recordId`; records with a `data` dictionary
      holding `text` carry the chain's answer record. */
  lemma BatchEchoesRecordIds(values: seq<Json>, world: nat -> Outcome<map<string, Json>>)
    requires forall i :: 0 <= i < |values| ==> Processable(values[i])
    ensures var r := Collect(Transforms(values, world));
      && r.Returned? && |r.value| == |values|
      && (forall i :: 0 <= i < |values| ==> r.value[i].recordId == values[i].fields["recordId"])
      && (forall i :: 0 <= i < |values| ==>
            ("data" in values[i].fields && values[i].fields["data"].JObj? && "text" in values[i].fields["data"].fields) ==>
              r.value[i] == DataRecord(values[i].fields["recordId"], FindSqlAnswer(world(i))))
  {
    CollectOneToOne(Transforms(values, world));
  }

  /** A batch that completes had only processable records, and has exactly one
      output record per request record, in order, each echoing its `recordId`. */
  lemma BatchCompleteIsOneToOne(values: seq<Json>, world: nat -> Outcome<map<string, Json>>)
    ensures var r := Collect(Transforms(values, world));
      r.Returned? ==>
        && |r.value| == |values|
        && forall i :: 0 <= i < |values| ==>
             Processable(values[i]) && r.value[i].recordId == values[i].fields["recordId"]
  {
    var outs := Transforms(values, world);
    CollectReturnedNoRaise(outs);
    if Collect(outs).Returned? {
      CollectOneToOne(outs);
    }
  }

  /** A record without `recordId` aborts the whole batch with `KeyError` instead of
      being dropped, unless an earlier record already aborted it. */
  lemma BatchAbortsOnMissingRecordId(values: seq<Json>, world: nat -> Outcome<map<string, Json>>, k: nat)
    requires k < |values| && values[k].JObj? && "recordId" !in values[k].fields
    requires forall j :: 0 <= j < k ==> Processable(values[j])
    ensures Collect(Transforms(values, world)) == Raised(Exc(KeyError, KeyRepr("recordId")))
  {
    CollectFirstRaise(Transforms(values, world), k);
  }

  /** The response never has more records than the request. */
  lemma BatchBound(values: seq<Json>, world: nat -> Outcome<map<string, Json>>)
    ensures var r := Collect(Transforms(values, world));
      r.Returned? ==> |r.value| <= |values|
  {
    CollectBound(Transforms(values, world));
  }
}

=== FILE: strings.dfy ===
/** Python string operations used by the answer post-processing: substring search
    (`q in s`, `s.find(q) >= 0`) and `s.replace(pat, rep)`, with the facts about
    replacement that the label normalisation relies on. */
module Strings {

  /** `w` is a prefix of `s`. */
  predicate StartsWith(s: string, w: string) {
    |w| <= |s| && s[..|w|] == w
  }

  /** Python's `q in s`, equivalently `s.find(q) >= 0`. */
  predicate Contains(s: string, q: string) {
    exists i :: 0 <= i <= |s| && StartsWith(s[i..], q)
  }

  /** Python's `s.replace(pat, rep)` for a non-empty pattern: the string is scanned
      left to right and every non-overlapping occurrence of `pat` is replaced. */
  function Replace(s: string, pat: string, rep: string): string
    requires pat != ""
    decreases |s|
  {
    if |s| < |pat| then s
    else if s[..|pat|] == pat then rep + Replace(s[|pat|..], pat, rep)
    else [s[0]] + Replace(s[1..], pat, rep)
  }

  /** `a[i..]` and `b[j..]` agree on their common length, so one is a prefix of the other. */
  predicate Comparable(a: string, i: nat, b: string, j: nat)
    requires i <= |a| && j <= |b|
    decreases |a| - i
  {
    i == |a| || j == |b| || (a[i] == b[j] && Comparable(a, i + 1, b, j + 1))
  }

  /** No non-empty suffix `xs[m..]` with `k <= m` is comparable with `w`. */
  predicate NoClash(xs: string, k: nat, w: string)
    requires k <= |xs|
    decreases |xs| - k
  {
    k == |xs| || (!Comparable(xs, k, w, 0) && NoClash(xs, k + 1, w))
  }

  /** An occurrence of `q` can never overlap an inserted copy of `rep`: no suffix of
      `q` is comparable with `rep` and no proper suffix of `rep` is comparable with `q`. */
  predicate Separated(q: string, rep: string) {
    rep != [] && NoClash(q, 0, rep) && NoClash(rep, 1, q)
  }

  lemma {:induction false} PrefixComparable(a: string, i: nat, b: string, j: nat)
    requires i <= |a| && j <= |b|
    requires StartsWith(a[i..], b[j..]) || StartsWith(b[j..], a[i..])
    ensures Comparable(a, i, b, j)
    decreases |a| - i
  {
    if i < |a| && j < |b| {
      assert a[i] == a[i..][0] && b[j] == b[j..][0];
      if StartsWith(a[i..], b[j..]) {
        assert a[i + 1..][..|b[j + 1..]|] == a[i..][..|b[j..]|][1..];
        assert b[j + 1..] == b[j..][1..];
      } else {
        assert b[j + 1..][..|a[i + 1..]|] == b[j..][..|a[i..]|][1..];
        assert a[i + 1..] == a[i..][1..];
      }
      PrefixComparable(a, i + 1, b, j + 1);
    }
  }

  lemma {:induction false} ComparableSymmetric(a: string, i: nat, b: string, j: nat)
    requires i <= |a| && j <= |b|
    ensures Comparable(a, i, b, j) == Comparable(b, j, a, i)
    decreases |a| - i
  {
    if i < |a| && j < |b| {
      ComparableSymmetric(a, i + 1, b, j + 1);
    }
  }

  /** Whatever starts `a + b` is a prefix of `a` or has `a` as a prefix. */
  lemma ConcatPrefix(a: string, b: string, w: string)
    requires StartsWith(a + b, w)
    ensures StartsWith(a, w) || StartsWith(w, a)
  {
    if |w| <= |a| {
      assert (a + b)[..|w|] == a[..|w|];
    } else {
      assert (a + b)[..|w|][..|a|] == a;
    }
  }

  lemma {:induction false} NoClashAt(xs: string, k: nat, w: string, m: nat)
    requires k <= m < |xs| && NoClash(xs, k, w)
    ensures !Comparable(xs, m, w, 0)
    decreases m - k
  {
    if k < m {
      NoClashAt(xs, k + 1, w, m);
    }
  }

  /** Positions of `xs` that do not hold the first character of `w` clash with nothing. */
  lemma {:induction false} SkipMismatched(xs: string, k: nat, m: nat, w: string)
    requires k <= m <= |xs| && w != [] && NoClash(xs, m, w)
    requires w[0] !in xs[k..m]
    ensures NoClash(xs, k, w)
    decreases m - k
  {
    if k < m {
      assert xs[k] == xs[k..m][0];
      assert xs[k + 1..m] == xs[k..m][1..];
      SkipMismatched(xs, k + 1, m, w);
    }
  }

  /** If the replaced string starts with a suffix of `q`, then so does the original,
      and the original does not start with the pattern there. */
  lemma {:induction false} ReplacedPrefix(s: string, pat: string, rep: string, q: string, k: nat)
    requires pat != "" && Separated(q, rep) && k < |q|
    requires StartsWith(Replace(s, pat, rep), q[k..])
    ensures StartsWith(s, q[k..]) && !StartsWith(s, pat)
    decreases |s|
  {
    if |s| < |pat| {
    } else if s[..|pat|] == pat {
      var rest := Replace(s[|pat|..], pat, rep);
      assert rep[0..] == rep;
      ConcatPrefix(rep, rest, q[k..]);
      PrefixComparable(q, k, rep, 0);
      NoClashAt(q, 0, rep, k);
    } else {
      var rest := Replace(s[1..], pat, rep);
      var r := [s[0]] + rest;
      assert r[0] == q[k] == s[0];
      if k + 1 < |q| {
        assert q[k + 1..] == q[k..][1..];
        assert rest[..|q[k + 1..]|] == r[1..][..|q[k + 1..]|];
        ReplacedPrefix(s[1..], pat, rep, q, k + 1);
        assert s[..|q[k..]|] == [s[0]] + s[1..][..|q[k + 1..]|];
      } else {
        assert q[k..] == [q[k]];
      }
    }
  }

  /** Every occurrence of `q` in the replaced string comes from an occurrence of `q`
      in the original at which the pattern does not match. */
  lemma {:induction false} ReplacedOccurrence(s: string, pat: string, rep: string, q: string, i: nat)
    requires pat != "" && q != "" && Separated(q, rep)
    requires i <= |Replace(s, pat, rep)| && StartsWith(Replace(s, pat, rep)[i..], q)
    ensures exists j :: 0 <= j <= |s| && StartsWith(s[j..], q) && !StartsWith(s[j..], pat)
    decreases |s|
  {
    var r := Replace(s, pat, rep);
    if |s| < |pat| {
      assert StartsWith(s[i..], q) && !StartsWith(s[i..], pat);
    } else if s[..|pat|] == pat {
      var rest := Replace(s[|pat|..], pat, rep);
      if i < |rep| {
        assert r[i..] == rep[i..] + rest;
        ConcatPrefix(rep[i..], rest, q);
        assert q[0..] == q;
        PrefixComparable(rep, i, q, 0);
        if i > 0 {
          NoClashAt(rep, 1, q, i);
        } else {
          ComparableSymmetric(rep, 0, q, 0);
        }
      } else {
        assert r[i..] == rest[i - |rep|..];
        ReplacedOccurrence(s[|pat|..], pat, rep, q, i - |rep|);
        var j :| 0 <= j <= |s[|pat|..]| && StartsWith(s[|pat|..][j..], q) && !StartsWith(s[|pat|..][j..], pat);
        assert s[|pat|..][j..] == s[j + |pat|..];
      }
    } else {
      var rest := Replace(s[1..], pat, rep);
      if i == 0 {
        assert q[0..] == q;
        ReplacedPrefix(s, pat, rep, q, 0);
        assert s[0..] == s;
      } else {
        assert r[i..] == rest[i - 1..];
        ReplacedOccurrence(s[1..], pat, rep, q, i - 1);
        var j :| 0 <= j <= |s[1..]| && StartsWith(s[1..][j..], q) && !StartsWith(s[1..][j..], pat);
        assert s[1..][j..] == s[j + 1..];
      }
    }
  }

  /** `s.replace(pat, rep)` leaves no occurrence of `pat` behind when no occurrence of
      `pat` can overlap a copy of `rep`. */
  lemma ReplaceRemovesPattern(s: string, pat: string, rep: string)
    requires pat != "" && Separated(pat, rep)
    ensures !Contains(Replace(s, pat, rep), pat)
  {
    var r := Replace(s, pat, rep);
    forall i | 0 <= i <= |r| && StartsWith(r[i..], pat)
      ensures false
    {
      ReplacedOccurrence(s, pat, rep, pat, i);
    }
  }

  /** `s.replace(pat, rep)` creates no occurrence of `q` that `s` did not have when no
      occurrence of `q` can overlap a copy of `rep`. */
  lemma ReplaceKeepsAbsent(s: string, pat: string, rep: string, q: string)
    requires pat != "" && q != "" && Separated(q, rep) && !Contains(s, q)
    ensures !Contains(Replace(s, pat, rep), q)
  {
    var r := Replace(s, pat, rep);
    forall i | 0 <= i <= |r| && StartsWith(r[i..], q)
      ensures false
    {
      ReplacedOccurrence(s, pat, rep, q, i);
    }
  }

  /** A string without a one-character pattern does not hold that character. */
  lemma NotContainsChar(s: string, c: char)
    requires !Contains(s, [c])
    ensures c !in s
  {
    forall i | 0 <= i < |s|
      ensures s[i] != c
    {
      assert !StartsWith(s[i..], [c]);
    }
  }

  /** A pattern holding a character that `s` lacks never matches, so nothing is replaced. */
  lemma {:induction false} ReplaceWithoutChar(s: string, pat: string, rep: string, c: char)
    requires pat != "" && c in pat && c !in s
    ensures Replace(s, pat, rep) == s
    decreases |s|
  {
    if |s| >= |pat| {
      assert c !in s[..|pat|];
      ReplaceWithoutChar(s[1..], pat, rep, c);
      assert s == [s[0]] + s[1..];
    }
  }

  /** An occurrence of the pattern at the front is replaced. */
  lemma ReplaceMatched(pat: string, t: string, rep: string)
    requires pat != ""
    ensures Replace(pat + t, pat, rep) == rep + Replace(t, pat, rep)
  {
    assert (pat + t)[..|pat|] == pat && (pat + t)[|pat|..] == t;
  }

  /** A character at which the pattern cannot start is kept. */
  lemma ReplaceMismatched(c: char, t: string, pat: string, rep: string, k: nat)
    requires pat != "" && k < |pat| && |pat| <= 1 + |t| && ([c] + t)[k] != pat[k]
    ensures Replace([c] + t, pat, rep) == [c] + Replace(t, pat, rep)
  {
    var s := [c] + t;
    assert s[..|pat|][k] != pat[k];
    assert s[1..] == t;
  }

  /** A prefix free of a one-character pattern is kept as it is. */
  lemma {:induction false} ReplaceSkipsFreePrefix(a: string, t: string, c: char, rep: string)
    requires c !in a
    ensures Replace(a + t, [c], rep) == a + Replace(t, [c], rep)
    decreases |a|
  {
    if a != [] {
      assert a + t == [a[0]] + (a[1..] + t);
      ReplaceMismatched(a[0], a[1..] + t, [c], rep, 0);
      ReplaceSkipsFreePrefix(a[1..], t, c, rep);
      assert [a[0]] + (a[1..] + Replace(t, [c], rep)) == a + Replace(t, [c], rep);
    } else {
      assert a + t == t;
    }
  }
}

=== FILE: values.dfy ===
/** The values the batch endpoints work on: a decoded JSON document, Python's
    truthiness of it, the exceptions that can arise while reading it, and the
    dictionary operations the record handlers apply (`v[key]`, `d.get(key)`,
    `key in v`), each with the Python 3.11 behaviour on every kind of value. */
module Values {

  import opened Strings

  datatype Option<+T> = None | Some(value: T)

  /** A value produced by `json.loads`. */
  datatype Json =
    | JNull
    | JBool(b: bool)
    | JInt(i: int)
    | JFloat(f: real)
    | JStr(s: string)
    | JArr(items: seq<Json>)
    | JObj(fields: map<string, Json>)

  /** The Python exception classes that matter to the handlers; `ServiceError`
      stands for anything raised by an external library or service. */
  datatype ExcKind = KeyError | TypeError | AttributeError | IndexError | UnboundLocalError | ServiceError

  /** A raised exception; `message` is `str(e)`. */
  datatype Exc = Exc(kind: ExcKind, message: string)

  /** A Python call either returns a value or raises. */
  datatype Outcome<+T> = Returned(value: T) | Raised(error: Exc)

  /** Python truthiness (`bool(v)`) of a decoded JSON value. */
  predicate Truthy(v: Json) {
    match v
    case JNull => false
    case JBool(b) => b
    case JInt(i) => i != 0
    case JFloat(f) => f != 0.0
    case JStr(s) => s != ""
    case JArr(items) => items != []
    case JObj(fields) => fields != map[]
  }

  /** Python's `a or b`. */
  function Or(a: Json, b: Json): Json {
    if Truthy(a) then a else b
  }

  /** `type(v).__name__` */
  function TypeName(v: Json): string {
    match v
    case JNull => "NoneType"
    case JBool(_) => "bool"
    case JInt(_) => "int"
    case JFloat(_) => "float"
    case JStr(_) => "str"
    case JArr(_) => "list"
    case JObj(_) => "dict"
  }

  /** `str(KeyError(key))` for a string key: the key's repr. */
  function KeyRepr(key: string): string {
    "'" + key + "'"
  }

  /** `v[key]` for a string key. */
  function Subscript(v: Json, key: string): (r: Outcome<Json>)
    ensures r.Returned? <==> v.JObj? && key in v.fields
    ensures r.Returned? ==> r.value == v.fields[key]
    ensures v.JObj? && key !in v.fields ==> r == Raised(Exc(KeyError, KeyRepr(key)))
    ensures !v.JObj? ==> r.Raised? && r.error.kind == TypeError
  {
    match v
    case JObj(fields) =>
      if key in fields then Returned(fields[key]) else Raised(Exc(KeyError, KeyRepr(key)))
    case JArr(_) => Raised(Exc(TypeError, "list indices must be integers or slices, not str"))
    case JStr(_) => Raised(Exc(TypeError, "string indices must be integers, not 'str'"))
    case _ => Raised(Exc(TypeError, "'" + TypeName(v) + "' object is not subscriptable"))
  }

  /** `d.get(key)` on a dictionary: the value, or `None` when the key is absent. */
  function DictGet(d: map<string, Json>, key: string): Json {
    if key in d then d[key] else JNull
  }

  /** Only lists, strings and dictionaries support `key in v`. */
  predicate IsContainer(v: Json) {
    v.JStr? || v.JArr? || v.JObj?
  }

  /** `key in v` for a string key: substring test on a string, element test on a
      list, key test on a dictionary; any other value raises `TypeError`. */
  function Membership(key: string, v: Json): (r: Outcome<bool>)
    ensures r.Raised? <==> !IsContainer(v)
    ensures r.Raised? ==> r.error.kind == TypeError
    ensures v.JObj? ==> r == Returned(key in v.fields)
    ensures v.JArr? ==> r == Returned(JStr(key) in v.items)
  {
    match v
    case JObj(fields) => Returned(key in fields)
    case JArr(items) => Returned(JStr(key) in items)
    case JStr(s) => Returned(Contains(s, key))
    case _ => Raised(Exc(TypeError, "argument of type '" + TypeName(v) + "' is not iterable"))
  }
}
